=== FILE: README.md ===
# Plugin download pipeline and assert-equals diff navigation, in Dafny

This project models two pieces of decision and string logic from the IntelliJ
platform and proves properties about them.

1. **`PluginDownloader`**. This is the plugin update pipeline.
   - *Version arbiter.* `compareVersionsSkipBroken` applies the broken-plugin override.
   - *File naming.* A file name comes from the `filename=` directive of a
     `Content-Disposition` header, else from the last path segment of the resolved URL,
     else from the last path segment of the plugin URL. Names are cached lazily by
     `getFileName` and `getPluginName`.
   - *Descriptor loading.* `loadDescriptionFromJar` reads the descriptor of the downloaded
     file.
   - *`prepareToInstall`.* This is a state machine.
   - *`install`.* It schedules the deferred delete of the old plugin and registers the new one.

   The downloader's mutable fields become the immutable record `Downloader`. Each step
   returns its outcome together with the new record. Java exceptions are outcomes: an
   `IOException` from the download is caught by `prepareToInstall`; one from descriptor
   loading, and the unchecked exceptions, escape it.
   The platform services are uninterpreted functions in the record `Env`:
   - the version comparator;
   - the plugin registry queries;
   - `isBrokenPlugin` and `isIncompatible`;
   - file-name validation and `getNameWithoutExtension`;
   - the jar and zip descriptor readers.

   The HTTP transfer is the oracle `Transfer`. Files in the temp directories are a
   `set<Path>`. The startup action script, the installer calls and the installed-plugins
   notifications are append-only logs in `Services`.
2. **`ViewAssertEqualsDiffAction`**. This is assert-equals diff navigation.
   - *The chain.* `MyAssertEqualsDiffChain` is `DiffChain.Chain`, a sequence of providers
     plus a current one. Previous and next use Java's `indexOf` and `%`.
   - *Collection.* `collectAvailableProviders` is an order-preserving filter.
   - *Enablement.* `update` is a pure enablement rule.
   - *`openDiff`.* It returns a result and decides when to build a chain.

   The data-context lookups are `Option` inputs.

Modules:
- `Wrappers` holds `Option` and `Result`.
- `Jdk` holds the exact JDK semantics the code relies on:
  - `indexOf` and `lastIndexOf` answer -1 when nothing is found;
  - `substring` throws on bad bounds;
  - `%` truncates toward zero.
- `PluginNaming` covers file naming.
- `PluginDownloader` holds the state record and the steps.
- `PluginScenarios` proves pipeline properties across several steps.
- `DiffChain` and `AssertEqualsDiff` model the diff action.

## Behaviour worth noting

The model follows the Java code in each of these cases.
- **Broken-plugin override.** `compareVersionsSkipBroken` lifts only a strictly negative
  comparison to 1 (`state < 0`, PluginDownloader.java:205). A version equal to a broken
  installed one is therefore still rejected (`PluginScenarios.BrokenEqualVersionIsRejected`).
- **Leftover temp file.** `downloadPlugin` creates the temp file (PluginDownloader.java:249)
  before it checks cancellation (:251). It deletes the file itself only when the server's
  name is invalid (:297). A cancellation therefore leaves the file behind
  (`PluginScenarios.CancellationEscapes`). After a transport failure the file survives
  exactly when the HTTP client left it there, which the transfer oracle reports.
- **Exceptions that escape.** Cancellation (`ProcessCanceledException`) and the single-quote
  header (`StringIndexOutOfBoundsException` from `substring(1, 0)`, :283) are unchecked
  exceptions. `prepareToInstall` catches only `IOException` (:161), so both escape it. An
  `IOException` from archive extraction is raised by `loadDescriptionFromJar` (:180),
  outside the `try`, and escapes too, with the downloaded file already recorded.
- **Rejection after download.** A rejection at :183, :189 or :197 leaves the downloaded file
  in the downloader. Preparing the same downloader again returns true at :140
  (`PluginScenarios.RejectionAfterDownloadThenRetryAccepts`).
- **Header hints skipped.** Before the transfer, `downloadPlugin` calls `getPluginName()` for
  the progress text (:252). When no plugin name was given, that call caches the plugin URL's
  last segment as the file name. The server's header and resolved URL are then never
  consulted, and the name is not validated (`PluginDownloader.UnnamedDownloadUsesPluginUrl`).
- **Missing registry entry.** `isPluginInstalled` can hold while `getPlugin` returns null.
  `LOG.assertTrue` only logs, so the code then dereferences null. The model gives
  `Threw(NullPointerException)`.

## Model

| member | source | states |
|---|---|---|
| `PluginDownloader.CompareVersionsSkipBroken` | platform/platform-impl/src/com/intellij/openapi/updateSettings/impl/PluginDownloader.java:203-209 | Without the broken flag the result equals the naive comparison. It differs only for a broken installed plugin and a strictly negative comparison, and then it is 1. It is zero exactly when the naive comparison is zero, so equal versions still give 0. |
| `PluginScenarios.BrokenEqualVersionIsRejected` | platform/platform-impl/src/com/intellij/openapi/updateSettings/impl/PluginDownloader.java:203-209 | A version hint equal to a broken installed version still makes `prepareToInstall` return false. |
| `PluginScenarios.BrokenOlderVersionIsFetched` | platform/platform-impl/src/com/intellij/openapi/updateSettings/impl/PluginDownloader.java:203-209 | A strictly older hint against a broken installed plugin passes the early check, and the installed path is recorded as the old file. |
| `PluginNaming.LastSegment` | platform/platform-impl/src/com/intellij/openapi/updateSettings/impl/PluginDownloader.java:290 | The result is a slash-free suffix of the URL that follows its last `/`. It is the whole URL when the URL has no `/`. |
| `PluginNaming.LastSegmentOfAppended` | platform/platform-impl/src/com/intellij/openapi/updateSettings/impl/PluginDownloader.java:290 | Appending `/segment` to any URL makes `segment` its last segment. |
| `PluginNaming.DirectiveSpan` | platform/platform-impl/src/com/intellij/openapi/updateSettings/impl/PluginDownloader.java:277-280 | The directive value starts right after the first `filename=`. It ends at the first `;` after that point, or at the end of the header, and contains no `;`. |
| `PluginNaming.NameFromHeader` | platform/platform-impl/src/com/intellij/openapi/updateSettings/impl/PluginDownloader.java:277-285 | There is no name exactly when the header is absent or lacks `filename=`. Otherwise one pair of quotes is stripped only when the value both starts and ends with `"`, and a lone `"` throws. |
| `PluginNaming.QuotedHeaderRoundTrip` | platform/platform-impl/src/com/intellij/openapi/updateSettings/impl/PluginDownloader.java:277-285 | `attachment; filename="<name>"` yields exactly `<name>` for any name without `;`. |
| `PluginNaming.BareHeaderRoundTrip` | platform/platform-impl/src/com/intellij/openapi/updateSettings/impl/PluginDownloader.java:277-285 | `filename=<name>` yields `<name>` when the name has no `;` and is not wrapped in quotes. |
| `PluginNaming.SingleQuoteValueThrows` | platform/platform-impl/src/com/intellij/openapi/updateSettings/impl/PluginDownloader.java:282-283 | A directive value that is one `"` makes the quote removal throw. |
| `PluginNaming.NameFromUrls` | platform/platform-impl/src/com/intellij/openapi/updateSettings/impl/PluginDownloader.java:287-294 | The resolved URL's last segment is used unless it is empty or has a `?`. In that case the plugin URL's last segment is used, with no further check. |
| `PluginNaming.GuessFileName` | platform/platform-impl/src/com/intellij/openapi/updateSettings/impl/PluginDownloader.java:271-302 | A header name takes precedence over the URL fallback. A name the validity predicate rejects fails. Otherwise the name is returned unchanged, so every success is a valid name. |
| `PluginDownloader.NewDownloader` | platform/platform-impl/src/com/intellij/openapi/updateSettings/impl/PluginDownloader.java:71-83 | A new downloader has no file, no old file and no descriptor, does not force HTTPS, and keeps the id, URL, version, name hints and build number it was given. |
| `PluginDownloader.GetFileName` | platform/platform-impl/src/com/intellij/openapi/updateSettings/impl/PluginDownloader.java:93-98 | The cached file name is returned if there is one. Otherwise the plugin URL's last segment is returned and cached. Nothing else changes. |
| `PluginDownloader.GetPluginName` | platform/platform-impl/src/com/intellij/openapi/updateSettings/impl/PluginDownloader.java:100-105 | The cached plugin name is returned if there is one. Otherwise the name is the file name without its extension, cached together with the file name. |
| `PluginDownloader.NamesAreCachedOnce` | platform/platform-impl/src/com/intellij/openapi/updateSettings/impl/PluginDownloader.java:93-105 | A second call returns the same name and leaves the downloader unchanged. |
| `PluginDownloader.DownloadPlugin` | platform/platform-impl/src/com/intellij/openapi/updateSettings/impl/PluginDownloader.java:244-267 | Steps run in order: temp-directory failure, temp file, cancellation, transfer, naming. A cancellation before the transfer leaves the temp file. A transport failure or a cancellation during the transfer leaves it exactly when the HTTP client kept it. Once the transfer starts the plugin name is cached as `getPluginName()` leaves it, and a later failure keeps exactly that downloader. A cached file name wins over guessing. An invalid guessed name deletes the temp file. On success the file bears its name, the name is cached, and only the name caches change. |
| `PluginDownloader.UnnamedDownloadUsesPluginUrl` | platform/platform-impl/src/com/intellij/openapi/updateSettings/impl/PluginDownloader.java:252-263 | With neither a file name nor a plugin name given, the downloaded file is named after the plugin URL's last segment, whatever the server sends. |
| `PluginDownloader.NamedDownloadUsesHeader` | platform/platform-impl/src/com/intellij/openapi/updateSettings/impl/PluginDownloader.java:259-263 | With a plugin name but no file name, a valid quoted `Content-Disposition` name names the file. |
| `PluginDownloader.LoadDescriptionFromJar` | platform/platform-impl/src/com/intellij/openapi/updateSettings/impl/PluginDownloader.java:211-230 | A jar descriptor wins. Otherwise only a `.zip` name is extracted, and only exactly one entry yields a descriptor. Extraction failure throws. The temp directory is gone on every path. |
| `PluginDownloader.DescriptorSources` | platform/platform-impl/src/com/intellij/openapi/updateSettings/impl/PluginDownloader.java:211-230 | Conversely, a descriptor comes only from the jar reader or from a `.zip` archive with exactly one entry. |
| `PluginDownloader.Decide` | platform/platform-impl/src/com/intellij/openapi/updateSettings/impl/PluginDownloader.java:180-200 | The post-download order is fixed. No descriptor accepts. An updated id rejects without changes. The plugin version is overwritten before the version check. The descriptor is recorded before the incompatibility check. |
| `PluginDownloader.DecideAcceptsExactly` | platform/platform-impl/src/com/intellij/openapi/updateSettings/impl/PluginDownloader.java:180-200 | A descriptor is accepted exactly when its id is not updated, it beats the installed plugin, and it is compatible. An accepted descriptor is recorded. |
| `PluginDownloader.DownloadAndDecide` | platform/platform-impl/src/com/intellij/openapi/updateSettings/impl/PluginDownloader.java:156-200 | A file is staged exactly when the download succeeds. A download `IOException` gives false and other exceptions propagate. After a failed download the files and the downloader are as the download left them, up to the error dialog's name lookup. After a download, an exception from loading the descriptor escapes, and otherwise the outcome and the downloader are exactly `Decide`'s on the staged downloader. The old file is untouched. |
| `PluginDownloader.PrepareToInstall` | platform/platform-impl/src/com/intellij/openapi/updateSettings/impl/PluginDownloader.java:139-201 | A staged downloader returns true with nothing changed. An installed plugin missing from the registry throws. A version hint that does not beat the installed plugin returns false with nothing changed. Otherwise the download ends as `DownloadAndDecide` states: with no old file when nothing is installed, and with the installed path as old file when it is. True implies a staged file. Nothing staged implies the descriptor is untouched. |
| `PluginDownloader.Install` | platform/platform-impl/src/com/intellij/openapi/updateSettings/impl/PluginDownloader.java:232-241 | It requires a staged file. It appends one delete command for the old file if and only if one was recorded. Then it installs the file under the plugin name with overwrite and reports the descriptor. |
| `PluginScenarios.EarlyRejectionSkipsDownload` | platform/platform-impl/src/com/intellij/openapi/updateSettings/impl/PluginDownloader.java:144-154 | An installed plugin with a hint that does not beat it gives false before any download. No file is created and the downloader is unchanged, so no old file is recorded. |
| `PluginScenarios.DownloadFailureStagesNothing` | platform/platform-impl/src/com/intellij/openapi/updateSettings/impl/PluginDownloader.java:156-178 | A transport `IOException` gives false with no file staged. The temp file remains exactly when the HTTP client kept it, and the version hint is unchanged. |
| `PluginScenarios.CancellationEscapes` | platform/platform-impl/src/com/intellij/openapi/updateSettings/impl/PluginDownloader.java:249-251 | Cancellation escapes `prepareToInstall` as an exception, and the temp file remains. |
| `PluginScenarios.TransferCancellationEscapes` | platform/platform-impl/src/com/intellij/openapi/updateSettings/impl/PluginDownloader.java:251-257 | A cancellation raised by `saveToFile` escapes `prepareToInstall` too: nothing is staged, the installed path stays the old file, and the plugin name is cached. |
| `PluginScenarios.RejectionAfterDownloadThenRetryAccepts` | platform/platform-impl/src/com/intellij/openapi/updateSettings/impl/PluginDownloader.java:139-183 | An id already updated this session gives false but keeps the file, so the next `prepareToInstall` returns true. |
| `PluginScenarios.IncompatibleDescriptorIsRecorded` | platform/platform-impl/src/com/intellij/openapi/updateSettings/impl/PluginDownloader.java:186-198 | An incompatible descriptor gives false, but its version and the descriptor itself are already recorded. |
| `PluginScenarios.FreshInstallSchedulesNoDelete` | platform/platform-impl/src/com/intellij/openapi/updateSettings/impl/PluginDownloader.java:232-241 | A plugin that was not installed is staged, and installing it leaves the action script as it was. |
| `PluginScenarios.UpgradeSchedulesDeleteOfOldPlugin` | platform/platform-impl/src/com/intellij/openapi/updateSettings/impl/PluginDownloader.java:232-238 | An upgrade records the installed path. Installing it appends exactly a delete command for that path. |
| `DiffChain.SetCurrent` | platform/testRunner/src/com/intellij/execution/testframework/actions/ViewAssertEqualsDiffAction.java:137-140 | Only the current provider changes, and `getCurrent` returns the value set. |
| `DiffChain.Next` | platform/testRunner/src/com/intellij/execution/testframework/actions/ViewAssertEqualsDiffAction.java:131-135 | The result is the provider after the first occurrence of the current one, wrapping from last to first. A current provider not in the list yields the first. |
| `DiffChain.Previous` | platform/testRunner/src/com/intellij/execution/testframework/actions/ViewAssertEqualsDiffAction.java:120-124 | The result is the provider before the first occurrence of the current one, wrapping from first to last. A current provider not in the list yields the second-to-last, or the only one. |
| `DiffChain.NextThenPrevious` | platform/testRunner/src/com/intellij/execution/testframework/actions/ViewAssertEqualsDiffAction.java:120-140 | With distinct providers, stepping next and then asking for previous returns the starting provider. |
| `DiffChain.PreviousThenNext` | platform/testRunner/src/com/intellij/execution/testframework/actions/ViewAssertEqualsDiffAction.java:120-140 | With distinct providers, stepping previous and then asking for next returns the starting provider. |
| `DiffChain.DuplicatesBreakRoundTrip` | platform/testRunner/src/com/intellij/execution/testframework/actions/ViewAssertEqualsDiffAction.java:120-135 | With a duplicated provider the round trip can fail: `[a, b, a]` starting at `b` is one example. |
| `DiffChain.WalkLandsAt` | platform/testRunner/src/com/intellij/execution/testframework/actions/ViewAssertEqualsDiffAction.java:131-140 | Up to `n` next steps from position `i` of a distinct list of `n` land on position `i + k`, counted round the end of the list. |
| `DiffChain.FullCycleReturns` | platform/testRunner/src/com/intellij/execution/testframework/actions/ViewAssertEqualsDiffAction.java:131-140 | `n` next steps over `n` distinct providers return to the starting chain. |
| `AssertEqualsDiff.LeafMultiProviders` | platform/testRunner/src/com/intellij/execution/testframework/actions/ViewAssertEqualsDiffAction.java:63-78 | The reference collection is never longer than the test list and holds only multi-diff providers. |
| `AssertEqualsDiff.CollectAvailableProviders` | platform/testRunner/src/com/intellij/execution/testframework/actions/ViewAssertEqualsDiffAction.java:63-78 | The loop returns nothing for an absent model. Otherwise it returns exactly the reference collection of the model's tests. |
| `AssertEqualsDiff.CollectionPreservesOrder` | platform/testRunner/src/com/intellij/execution/testframework/actions/ViewAssertEqualsDiffAction.java:68-75 | Collection distributes over concatenation, so test order is kept. |
| `AssertEqualsDiff.CollectedExactly` | platform/testRunner/src/com/intellij/execution/testframework/actions/ViewAssertEqualsDiffAction.java:68-75 | A provider is collected if and only if some leaf test carries it as a multi-diff provider. |
| `AssertEqualsDiff.Update` | platform/testRunner/src/com/intellij/execution/testframework/actions/ViewAssertEqualsDiffAction.java:80-106 | The action is enabled exactly when there is a project and a test that is either a leaf with a provider or a non-leaf defect. Visible always equals enabled. |
| `AssertEqualsDiff.OpenDiff` | platform/testRunner/src/com/intellij/execution/testframework/actions/ViewAssertEqualsDiffAction.java:42-61 | A diff opens if and only if a test with a provider is selected. A multi-diff gets a chain starting at itself exactly when more than one provider was collected. |
| `AssertEqualsDiff.ChainIsNavigable` | platform/testRunner/src/com/intellij/execution/testframework/actions/ViewAssertEqualsDiffAction.java:48-53 | Every chain built has more than one provider, so `%` is safe. A listed leaf's provider is in its chain. |
| `AssertEqualsDiff.EnabledActionOpensUnlessSuite` | platform/testRunner/src/com/intellij/execution/testframework/actions/ViewAssertEqualsDiffAction.java:35-106 | When the action is enabled, a leaf always opens a diff. Nothing opens exactly when a non-leaf defect without a provider is selected. |

## Left out

- The HTTP transfer (gzip, forced HTTPS, progress text, streaming) is not modelled. It is the oracle `Transfer`, which can also report a cancellation raised while the body is saved, and which reports whether a failed or cancelled transfer left the temp file in place (`HttpRequests` is not part of this model), and the `forceHttps` field is carried but never read.
- `FileUtil.rename` is assumed to succeed. `FileUtil.createTempFile` and `FileUtil.createTempDirectory` are given fresh names as parameters, and their failures are not modelled.
- The error dialog scheduled with `invokeLater` is UI and threading. Only its `getPluginName()` call, which updates the name caches, is modelled.
- `getRepositoryUrl`, `getHostUrl` and `createDownloader` are left out. They rely on URI and URL libraries, UUID generation and application-info lookups.
- `createPluginNode` is left out. It only copies fields.
- Plain accessors (`getPluginId`, `getPluginVersion`, `getBuildNumber`, `getDescriptor`/`setDescriptor`, `setForceHttps`) are plain field reads and writes. They are left out, except as record fields. `myDescription` and `myDepends`, with `getDescription`/`setDescription` and `getDepends`/`setDepends`, are not modelled at all: nothing in the core reads them.
- The following library routines are uninterpreted functions in `Env`, because their source is not part of this model:
  - `StringUtil.compareVersionNumbers`;
  - `PathUtil.isValidFileName`;
  - `FileUtil.getNameWithoutExtension`;
  - `ZipUtil.extract`;
  - the descriptor readers of `PluginManagerCore`.

  So reflexivity or antisymmetry of the version comparison is not stated.
- The `PluginManager`, `InstalledPluginsState` and `StartupActionScriptManager` singletons are explicit inputs. `wasUpdated` is the input set `updated`. The effect of `onPluginInstall` is only logged, because its source is not part of this model. `PluginInstaller.install` is logged, and its I/O errors are not modelled.
- Logging (`LOG.info`, `LOG.warn`, `LOG.debug`) is left out.
- `actionPerformed`'s message dialog and the actual diff windows are UI. `openDiff` returns what it would ask a provider to open.

=== FILE: assert_equals_diff.dfy ===
/** `ViewAssertEqualsDiffAction`: which test-tree selections enable the
    "view assert-equals difference" action, which diff providers join the
    previous/next chain, and what opening the diff does. The data-context
    lookups (project, selected test, running model) are optional inputs. */
module AssertEqualsDiff {
  import opened Wrappers
  import opened DiffChain

  /** A diff viewer provider; the multi-diff kind can take part in a chain. */
  datatype DiffProvider = SingleDiff(key: int) | MultiDiff(key: int)

  /** The parts of a test proxy the action reads. */
  datatype TestProxy = TestProxy(isLeaf: bool, isDefect: bool, diffProvider: Option<DiffProvider>)

  /** A running test model, by the list its root's `getAllTests` returns. */
  datatype RunningModel = RunningModel(allTests: seq<TestProxy>)

  /** The project in the data context; only its presence matters. */
  datatype Project = Project(name: string)

  /** Whether `test` contributes its provider to the chain. */
  predicate Contributes(test: TestProxy) {
    test.isLeaf && test.diffProvider.Some? && test.diffProvider.value.MultiDiff?
  }

  /** Reference definition: the multi-diff providers of the leaf tests, in
      test order. */
  function LeafMultiProviders(tests: seq<TestProxy>): (r: seq<DiffProvider>)
    ensures |r| <= |tests|
    ensures forall p :: p in r ==> p.MultiDiff?
  {
    if |tests| == 0 then []
    else
      var last := tests[|tests| - 1];
      LeafMultiProviders(tests[..|tests| - 1])
        + (if Contributes(last) then [last.diffProvider.value] else [])
  }

  /** The providers offered for a model that may be absent. */
  function Collected(model: Option<RunningModel>): seq<DiffProvider> {
    match model
    case None => []
    case Some(m) => LeafMultiProviders(m.allTests)
  }

  /** `collectAvailableProviders`: one pass over the model's tests keeping the
      multi-diff providers of leaves; nothing when there is no model. */
  method CollectAvailableProviders(model: Option<RunningModel>) returns (providers: seq<DiffProvider>)
    ensures model.None? ==> providers == []
    ensures model.Some? ==> providers == LeafMultiProviders(model.value.allTests)
  {
    providers := [];
    if model.Some? {
      var allTests := model.value.allTests;
      var i := 0;
      while i < |allTests|
        invariant 0 <= i <= |allTests|
        invariant providers == LeafMultiProviders(allTests[..i])
      {
        var test := allTests[i];
        assert allTests[..i + 1][..i] == allTests[..i];
        if test.isLeaf {
          var provider := test.diffProvider;
          if provider.Some? && provider.value.MultiDiff? {
            providers := providers + [provider.value];
          }
        }
        i := i + 1;
      }
      assert allTests[..|allTests|] == allTests;
    }
  }

  /** The collection distributes over concatenation: the providers of a test
      list are those of its first part followed by those of its second. */
  lemma {:induction false} CollectionPreservesOrder(a: seq<TestProxy>, b: seq<TestProxy>)
    ensures LeafMultiProviders(a + b) == LeafMultiProviders(a) + LeafMultiProviders(b)
    decreases |b|
  {
    if |b| == 0 {
      assert a + b == a;
    } else {
      var b' := b[..|b| - 1];
      assert (a + b)[..|a + b| - 1] == a + b';
      assert (a + b)[|a + b| - 1] == b[|b| - 1];
      CollectionPreservesOrder(a, b');
    }
  }

  /** A provider is collected exactly when some leaf test carries it and it
      is a multi-diff provider. */
  lemma {:induction false} CollectedExactly(tests: seq<TestProxy>, p: DiffProvider)
    ensures p in LeafMultiProviders(tests) <==>
      exists i :: 0 <= i < |tests| && Contributes(tests[i]) && tests[i].diffProvider.value == p
    decreases |tests|
  {
    if |tests| > 0 {
      var init := tests[..|tests| - 1];
      CollectedExactly(init, p);
      if exists i :: 0 <= i < |init| && Contributes(init[i]) && init[i].diffProvider.value == p {
        var i :| 0 <= i < |init| && Contributes(init[i]) && init[i].diffProvider.value == p;
        assert tests[i] == init[i];
      }
      if exists i :: 0 <= i < |tests| && Contributes(tests[i]) && tests[i].diffProvider.value == p {
        var i :| 0 <= i < |tests| && Contributes(tests[i]) && tests[i].diffProvider.value == p;
        if i < |tests| - 1 {
          assert init[i] == tests[i];
        }
      }
    }
  }

  /** The action's presentation: enabled and visible. */
  datatype Presentation = Presentation(enabled: bool, visible: bool)

  /** `update`: enabled exactly when there is a project and a selected test
      that is either a leaf with a diff provider or a non-leaf defect;
      visible exactly when enabled. */
  function Update(project: Option<Project>, test: Option<TestProxy>): (p: Presentation)
    ensures p.visible == p.enabled
    ensures p.enabled <==>
      && project.Some? && test.Some?
      && ((test.value.isLeaf && test.value.diffProvider.Some?) || (!test.value.isLeaf && test.value.isDefect))
  {
    var enabled :=
      if project.None? then false
      else match test
        case None => false
        case Some(t) =>
          if t.isLeaf then t.diffProvider.Some?
          else if t.isDefect then true
          else false;
    Presentation(enabled, enabled)
  }

  /** What `openDiff` asks the provider to show: nothing, a plain diff, or a
      multi-diff with an optional previous/next chain. */
  datatype DiffRequest =
    | NoDiff
    | OpenDiffRequest(provider: DiffProvider, project: Option<Project>)
    | OpenMultiDiffRequest(provider: DiffProvider, project: Option<Project>, chain: Option<Chain<DiffProvider>>)

  /** `openDiff`: when the selected test has a diff provider, open it and
      report true; a multi-diff provider gets a chain over the collected
      providers, starting at itself, when more than one was collected. */
  function OpenDiff(test: Option<TestProxy>, project: Option<Project>, model: Option<RunningModel>): (r: DiffRequest)
    ensures r.NoDiff? <==> test.None? || test.value.diffProvider.None?
    ensures r.OpenDiffRequest? ==> r.provider == test.value.diffProvider.value && r.provider.SingleDiff?
    ensures r.OpenMultiDiffRequest? ==>
      && r.provider == test.value.diffProvider.value && r.provider.MultiDiff?
      && (r.chain.Some? <==> |Collected(model)| > 1)
      && (r.chain.Some? ==> r.chain.value == Chain(Collected(model), r.provider))
    ensures !r.NoDiff? ==> r.project == project
  {
    match test
    case None => NoDiff
    case Some(t) =>
      match t.diffProvider
      case None => NoDiff
      case Some(provider) =>
        if provider.MultiDiff? then
          var providers := Collected(model);
          var chain := if |providers| > 1 then Some(Chain(providers, provider)) else None;
          OpenMultiDiffRequest(provider, project, chain)
        else OpenDiffRequest(provider, project)
  }

  /** `openDiff`'s boolean result. */
  predicate Opened(r: DiffRequest) {
    !r.NoDiff?
  }

  /** Every chain `openDiff` builds can be navigated (it has more than one
      provider), and when the selected test is a leaf listed in the model
      its provider is in the chain, so next and previous move from it. */
  lemma ChainIsNavigable(test: Option<TestProxy>, project: Option<Project>, model: Option<RunningModel>)
    requires OpenDiff(test, project, model).OpenMultiDiffRequest?
    requires OpenDiff(test, project, model).chain.Some?
    ensures |OpenDiff(test, project, model).chain.value.providers| > 1
    ensures model.Some? && test.value.isLeaf && test.value in model.value.allTests ==>
      OpenDiff(test, project, model).chain.value.current in OpenDiff(test, project, model).chain.value.providers
  {
    var r := OpenDiff(test, project, model);
    if model.Some? && test.value.isLeaf && test.value in model.value.allTests {
      var i :| 0 <= i < |model.value.allTests| && model.value.allTests[i] == test.value;
      assert Contributes(model.value.allTests[i]);
      CollectedExactly(model.value.allTests, r.provider);
    }
  }

  /** Enablement and `openDiff` agree except on one selection: an enabled
      leaf always opens a diff, and an enabled action that finds no diff (so
      `actionPerformed` shows "Comparison error was not found") has a non-leaf
      defect without a provider selected. */
  lemma EnabledActionOpensUnlessSuite(project: Option<Project>, test: Option<TestProxy>, model: Option<RunningModel>)
    requires Update(project, test).enabled
    ensures test.value.isLeaf ==> Opened(OpenDiff(test, project, model))
    ensures !Opened(OpenDiff(test, project, model)) <==>
      !test.value.isLeaf && test.value.isDefect && test.value.diffProvider.None?
  {
  }
}

=== FILE: diff_chain.dfy ===
/** `MyAssertEqualsDiffChain`: a fixed list of diff providers and a current
    one, with cyclic previous/next navigation by position in the list. */
module DiffChain {
  import opened Jdk

  /** The providers (never changed after construction) and the current one,
      which need not be in the list. */
  datatype Chain<P> = Chain(providers: seq<P>, current: P)

  /** No provider occurs twice. */
  predicate Distinct<P(==)>(s: seq<P>) {
    forall i, j :: 0 <= i < j < |s| ==> s[i] != s[j]
  }

  /** `getCurrent`. */
  function Current<P>(c: Chain<P>): P {
    c.current
  }

  /** `setCurrent`: only the current provider changes, and it is read back. */
  function SetCurrent<P>(c: Chain<P>, p: P): (r: Chain<P>)
    ensures r.providers == c.providers
    ensures Current(r) == p
  {
    c.(current := p)
  }

  /** `getNext`: the element at `(indexOf(current) + 1) % size`, computed with
      Java's remainder. The size must not be zero; the chain is only ever
      built with more than one provider. The element after the last one is
      the first, and a current provider missing from the list (index -1)
      also yields the first. */
  function Next<P(==)>(c: Chain<P>): (r: P)
    requires |c.providers| > 0
    ensures r in c.providers
    ensures var i := IndexOf(c.providers, c.current);
      r == c.providers[if i == |c.providers| - 1 then 0 else i + 1]
  {
    var n := |c.providers|;
    var idx := IndexOf(c.providers, c.current);
    var k := JavaRem(idx + 1, n);
    assert k == if idx == n - 1 then 0 else idx + 1 by {
      if idx + 1 == n { JavaRemOnce(idx + 1, n); }
    }
    c.providers[k]
  }

  /** `getPrevious`: the element at `(size + indexOf(current) - 1) % size`.
      The element before the first one is the last. A current provider
      missing from the list has index -1, which makes the previous one the
      second-to-last element (the only element when there is one). */
  function Previous<P(==)>(c: Chain<P>): (r: P)
    requires |c.providers| > 0
    ensures r in c.providers
    ensures var i := IndexOf(c.providers, c.current);
      && (i >= 0 ==> r == c.providers[if i == 0 then |c.providers| - 1 else i - 1])
      && (i == -1 ==> r == c.providers[if |c.providers| == 1 then 0 else |c.providers| - 2])
  {
    var n := |c.providers|;
    var idx := IndexOf(c.providers, c.current);
    var k := JavaRem(n + idx - 1, n);
    assert k == if idx == 0 then n - 1 else if idx > 0 then idx - 1 else if n == 1 then 0 else n - 2 by {
      if n + idx - 1 >= n { JavaRemOnce(n + idx - 1, n); }
    }
    c.providers[k]
  }

  /** Moving to the next provider and asking for the previous one gives back
      the provider we started from, when providers are distinct and the
      current one is among them. */
  lemma NextThenPrevious<P>(c: Chain<P>)
    requires |c.providers| > 0 && Distinct(c.providers) && c.current in c.providers
    ensures Previous(SetCurrent(c, Next(c))) == c.current
  {
  }

  /** And the other way round. */
  lemma PreviousThenNext<P>(c: Chain<P>)
    requires |c.providers| > 0 && Distinct(c.providers) && c.current in c.providers
    ensures Next(SetCurrent(c, Previous(c))) == c.current
  {
  }

  /** With a duplicated provider the round trip can fail: in `[a, b, a]`
      starting at `b`, next is the second `a`, whose previous is looked up
      from the first `a` and is the last element, `a`. */
  lemma DuplicatesBreakRoundTrip()
    ensures var c := Chain([0, 1, 0], 1);
      Previous(SetCurrent(c, Next(c))) != Current(c)
  {
  }

  /** `k` successive next steps, each making the next provider current. */
  function Walk<P(==)>(c: Chain<P>, k: nat): (r: Chain<P>)
    requires |c.providers| > 0
    ensures r.providers == c.providers
    decreases k
  {
    if k == 0 then c else Walk(SetCurrent(c, Next(c)), k - 1)
  }

  /** One next step from position `i` of a distinct list moves to the
      following position, wrapping from the last to the first. */
  lemma StepFrom<P>(c: Chain<P>, i: nat)
    requires |c.providers| > 0 && Distinct(c.providers)
    requires i < |c.providers| && c.providers[i] == c.current
    ensures Next(c) == c.providers[if i == |c.providers| - 1 then 0 else i + 1]
  {
  }

  /** From position `i` of a distinct list of `n` providers, `k <= n` next
      steps land on position `i + k`, counted round the end of the list. */
  lemma {:induction false} WalkLandsAt<P>(c: Chain<P>, i: nat, k: nat)
    requires |c.providers| > 0 && Distinct(c.providers)
    requires i < |c.providers| && c.providers[i] == c.current && k <= |c.providers|
    ensures Walk(c, k).current
      == c.providers[if i + k < |c.providers| then i + k else i + k - |c.providers|]
    decreases k
  {
    if k > 0 {
      var n := |c.providers|;
      var i' := if i == n - 1 then 0 else i + 1;
      var c' := Chain(c.providers, c.providers[i']);
      StepFrom(c, i);
      assert Walk(c, k) == Walk(c', k - 1);
      WalkLandsAt(c', i', k - 1);
    }
  }

  /** `n` next steps from any provider of a distinct list of `n` come back to
      that provider, and the whole chain is as it was. */
  lemma FullCycleReturns<P>(c: Chain<P>)
    requires |c.providers| > 0 && Distinct(c.providers) && c.current in c.providers
    ensures Walk(c, |c.providers|) == c
  {
    var n := |c.providers|;
    var i :| 0 <= i < n && c.providers[i] == c.current;
    WalkLandsAt(c, i, n);
  }
}

=== FILE: jdk.dfy ===
/** The few `java.lang.String`, `java.util.List` and integer operations the
    modelled code relies on, with the JDK's exact edge-case behaviour:
    searches answer -1 when nothing is found, `substring` throws on bad
    bounds, and `%` truncates toward zero. */
module Jdk {
  import opened Wrappers

  /** `pat` occurs in `s` starting at index `i`. */
  predicate OccursAt(s: string, pat: string, i: int) {
    0 <= i && i + |pat| <= |s| && s[i..i + |pat|] == pat
  }

  /** `s.indexOf(pat, from)`: the first occurrence of `pat` at or after `from`, or -1. */
  function IndexOfFrom(s: string, pat: string, from: nat): (r: int)
    ensures r == -1 || (from <= r && OccursAt(s, pat, r))
    ensures r == -1 <==> forall j :: from <= j ==> !OccursAt(s, pat, j)
    ensures r != -1 ==> forall j :: from <= j < r ==> !OccursAt(s, pat, j)
    decreases |s| - from
  {
    if from + |pat| > |s| then -1
    else if s[from..from + |pat|] == pat then from
    else IndexOfFrom(s, pat, from + 1)
  }

  /** `s.contains(pat)`. */
  predicate Contains(s: string, pat: string) {
    IndexOfFrom(s, pat, 0) != -1
  }

  /** `s.indexOf(c, from)`: the first index at or after `from` holding `c`, or -1. */
  function IndexOfCharFrom(s: string, c: char, from: nat): (r: int)
    ensures r == -1 || (from <= r < |s| && s[r] == c)
    ensures r == -1 ==> forall j :: from <= j < |s| ==> s[j] != c
    ensures r != -1 ==> forall j :: from <= j < r ==> s[j] != c
    decreases |s| - from
  {
    if from >= |s| then -1
    else if s[from] == c then from
    else IndexOfCharFrom(s, c, from + 1)
  }

  /** `s.lastIndexOf(c)`: the last index holding `c`, or -1. */
  function LastIndexOfChar(s: string, c: char): (r: int)
    ensures -1 <= r < |s|
    ensures r == -1 <==> c !in s
    ensures r != -1 ==> s[r] == c && c !in s[r + 1..]
  {
    if |s| == 0 then -1
    else if s[|s| - 1] == c then |s| - 1
    else
      var r := LastIndexOfChar(s[..|s| - 1], c);
      assert s == s[..|s| - 1] + [s[|s| - 1]];
      r
  }

  /** `s.substring(begin, end)`, which throws `StringIndexOutOfBoundsException`
      (here `None`) unless `0 <= begin <= end <= s.length()`. */
  function Substring(s: string, begin: int, end: int): (r: Option<string>)
    ensures r.Some? <==> 0 <= begin <= end <= |s|
    ensures r.Some? ==> |r.value| == end - begin
                        && forall k :: 0 <= k < |r.value| ==> r.value[k] == s[begin + k]
  {
    if 0 <= begin <= end <= |s| then Some(s[begin..end]) else None
  }

  /** `StringUtil.startsWithChar`. */
  predicate StartsWithChar(s: string, c: char) {
    |s| > 0 && s[0] == c
  }

  /** `StringUtil.endsWithChar`. */
  predicate EndsWithChar(s: string, c: char) {
    |s| > 0 && s[|s| - 1] == c
  }

  /** `s.endsWith(suffix)`. */
  predicate EndsWith(s: string, suffix: string) {
    |suffix| <= |s| && s[|s| - |suffix|..] == suffix
  }

  /** `list.indexOf(x)`: the first index holding `x`, or -1. */
  function IndexOf<T(==)>(s: seq<T>, x: T): (r: int)
    ensures -1 <= r < |s|
    ensures r == -1 <==> x !in s
    ensures r != -1 ==> s[r] == x && forall j :: 0 <= j < r ==> s[j] != x
  {
    FirstIndexFrom(s, x, 0)
  }

  /** The first index at or after `from` holding `x`, or -1. */
  function FirstIndexFrom<T(==)>(s: seq<T>, x: T, from: nat): (r: int)
    requires from <= |s|
    ensures r == -1 || from <= r < |s|
    ensures r == -1 <==> forall j :: from <= j < |s| ==> s[j] != x
    ensures r != -1 ==> s[r] == x && forall j :: from <= j < r ==> s[j] != x
    decreases |s| - from
  {
    if from == |s| then -1
    else if s[from] == x then from
    else FirstIndexFrom(s, x, from + 1)
  }

  /** Java's `a % b` on `int` for a positive divisor: the remainder of division
      truncated toward zero, so it takes the sign of `a` (Dafny's own `%` is
      Euclidean and never negative). Written as repeated subtraction of the
      divisor from the magnitude of `a`. */
  function JavaRem(a: int, b: int): (r: int)
    requires b > 0
    ensures -b < r < b
    ensures a >= 0 ==> 0 <= r
    ensures a < 0 ==> r <= 0
    ensures 0 <= a < b ==> r == a
    decreases if a >= 0 then a else -a + 1
  {
    if a < 0 then -JavaRem(-a, b)
    else if a < b then a
    else JavaRem(a - b, b)
  }

  /** A dividend between one and two divisors loses one divisor. */
  lemma JavaRemOnce(a: int, b: int)
    requires 0 < b <= a < 2 * b
    ensures JavaRem(a, b) == a - b
  {
  }
}

=== FILE: plugin_downloader.dfy ===
/** The decision logic of `PluginDownloader`: the version arbiter with its
    broken-plugin override, the naming step of the download, descriptor
    loading from the downloaded file, the `prepareToInstall` state machine and
    `install`. The downloader's mutable fields become an immutable record and
    every step returns the outcome together with the updated record. The
    platform services it calls (version comparison, the plugin registry, file
    name validation, archive and descriptor readers) are the fields of `Env`;
    the HTTP transfer is the oracle `Transfer`. */
module PluginDownloader {
  import opened Wrappers
  import opened Jdk
  import opened PluginNaming

  /** The parts of a plugin descriptor the downloader reads. */
  datatype Descriptor = Descriptor(id: string, version: string, path: string)

  /** The downloader's fields. `file` is the staged download and `oldFile` the
      installed plugin's path, to be deleted at the next start. */
  datatype Downloader = Downloader(
    pluginId: string,
    pluginUrl: string,
    pluginVersion: Option<string>,
    fileName: Option<string>,
    pluginName: Option<string>,
    buildNumber: Option<string>,
    forceHttps: bool,
    file: Option<string>,
    oldFile: Option<string>,
    descriptor: Option<Descriptor>)

  /** A freshly constructed downloader: nothing downloaded, nothing recorded. */
  function NewDownloader(pluginId: string, pluginUrl: string, pluginVersion: Option<string>,
                         fileName: Option<string>, pluginName: Option<string>,
                         buildNumber: Option<string>): (d: Downloader)
    ensures d.file.None? && d.oldFile.None? && d.descriptor.None?
    ensures d.pluginUrl == pluginUrl && d.fileName == fileName && d.pluginName == pluginName
    ensures d.pluginId == pluginId && d.pluginVersion == pluginVersion && d.buildNumber == buildNumber
    ensures !d.forceHttps
  {
    Downloader(pluginId, pluginUrl, pluginVersion, fileName, pluginName, buildNumber,
               false, None, None, None)
  }

  /** What `ZipUtil.extract` followed by `listFiles` gives: an I/O failure, or
      the entries of the output directory (`None` when the listing is null). */
  datatype Extraction = ExtractionFailed(message: string) | Extracted(entries: Option<seq<string>>)

  /** The collaborators, as uninterpreted total functions and flags. */
  datatype Env = Env(
    startupWizardMode: bool,
    hasApplication: bool,
    isPluginInstalled: string -> bool,
    getPlugin: string -> Option<Descriptor>,
    compareVersionNumbers: (string, string) -> int,
    isBrokenPlugin: Descriptor -> bool,
    isIncompatible: (Descriptor, Option<string>) -> bool,
    isValidFileName: string -> bool,
    nameWithoutExtension: string -> string,
    loadDescriptorFromJar: string -> Option<Descriptor>,
    extractZip: string -> Extraction,
    loadDescriptor: string -> Option<Descriptor>)

  /** The exceptions that can leave the modelled steps. Only `IOException` is
      caught by `prepareToInstall`; the others are unchecked and escape it. */
  datatype JavaException =
    | IOException(message: string)
    | ProcessCanceledException
    | NullPointerException
    | StringIndexOutOfBoundsException

  /** How a call ends: it returns a boolean or it throws. */
  datatype Outcome = Returned(value: bool) | Threw(exception: JavaException)

  /** Files the steps create and delete: downloads live in the plugin temp
      directory, archive extraction uses a fresh directory in the system one. */
  datatype Path = PluginTemp(name: string) | SystemTemp(name: string)

  // ---------------------------------------------------------------------------
  // Version arbiter

  /** `compareVersionsSkipBroken`: the sign of comparing the new version with
      the installed one, except that a strictly older version counts as newer
      (1) when the installed plugin is known to be broken. */
  function CompareVersionsSkipBroken(env: Env, installed: Descriptor, newVersion: string): (r: int)
    ensures var naive := env.compareVersionNumbers(newVersion, installed.version);
      && (!env.isBrokenPlugin(installed) ==> r == naive)
      && (r != naive ==> env.isBrokenPlugin(installed) && naive < 0 && r == 1)
      && (r > 0 <==> naive > 0 || (naive < 0 && env.isBrokenPlugin(installed)))
      && (r == 0 <==> naive == 0)
      && (r < 0 <==> naive < 0 && !env.isBrokenPlugin(installed))
  {
    var state := env.compareVersionNumbers(newVersion, installed.version);
    if env.isBrokenPlugin(installed) && state < 0 then 1 else state
  }

  // ---------------------------------------------------------------------------
  // Lazily cached names

  /** `getFileName`: the cached file name, else the plugin URL's last segment,
      which is then cached. */
  function GetFileName(d: Downloader): (r: (string, Downloader))
    ensures d.fileName.Some? ==> r == (d.fileName.value, d)
    ensures d.fileName.None? ==> r.0 == LastSegment(d.pluginUrl)
    ensures r.1 == d.(fileName := Some(r.0))
  {
    match d.fileName
    case Some(name) => (name, d)
    case None =>
      var name := LastSegment(d.pluginUrl);
      (name, d.(fileName := Some(name)))
  }

  /** `getPluginName`: the cached plugin name, else the file name without its
      extension, which is then cached (caching the file name on the way). */
  function GetPluginName(d: Downloader, env: Env): (r: (string, Downloader))
    ensures d.pluginName.Some? ==> r == (d.pluginName.value, d)
    ensures d.pluginName.None? ==>
      && r.0 == env.nameWithoutExtension(GetFileName(d).0)
      && r.1 == d.(fileName := Some(GetFileName(d).0), pluginName := Some(r.0))
  {
    match d.pluginName
    case Some(name) => (name, d)
    case None =>
      var (fileName, d1) := GetFileName(d);
      var name := env.nameWithoutExtension(fileName);
      (name, d1.(pluginName := Some(name)))
  }

  /** Asking for a name twice gives the same name and changes nothing the
      second time. */
  lemma NamesAreCachedOnce(d: Downloader, env: Env)
    ensures GetFileName(GetFileName(d).1) == (GetFileName(d).0, GetFileName(d).1)
    ensures GetPluginName(GetPluginName(d, env).1, env)
         == (GetPluginName(d, env).0, GetPluginName(d, env).1)
  {
  }

  // ---------------------------------------------------------------------------
  // Download (naming step)

  /** The HTTP transfer as an oracle: whether the plugin temp directory exists
      or can be made, whether the progress indicator is already cancelled, and
      what the server answered. */
  datatype Transfer = Transfer(tempDirReady: bool, cancelled: bool, response: Response)

  /** A failed request, or one the progress indicator cancelled while the
      body was being saved (each with whether the partly written temp file is
      still there afterwards, which is up to the HTTP client), or a saved body
      with its `Content-Disposition` header and the URL the request finally
      resolved to. */
  datatype Response =
    | TransportFailed(message: string, fileKept: bool)
    | TransferCancelled(fileKept: bool)
    | Received(contentDisposition: Option<string>, resolvedUrl: string)

  /** Message of the `IOException` for a temp directory that cannot be made. */
  const CannotCreateTempDir := "error.cannot.create.temp.dir"

  /** Message of the `IOException` for a name the validity predicate rejects. */
  const InvalidFilenameMessage := "Invalid filename returned by a server"

  /** The downloaded file (its name in the plugin temp directory) or the
      exception, the downloader with its name caches, and the files present. */
  datatype Downloaded = Downloaded(file: Result<string, JavaException>, plan: Downloader, fs: set<Path>)

  /** `downloadPlugin`: make the temp file, check cancellation, compute the
      plugin name for the progress text, transfer, then name the file (from
      the cached file name if there is one, else by `guessFileName`) and
      rename the temp file to that name. */
  function DownloadPlugin(d: Downloader, env: Env, transfer: Transfer, fs: set<Path>,
                          tempName: string): (r: Downloaded)
    requires PluginTemp(tempName) !in fs
    ensures r.plan == d.(fileName := r.plan.fileName, pluginName := r.plan.pluginName)
    ensures !transfer.tempDirReady ==> r == Downloaded(Failure(IOException(CannotCreateTempDir)), d, fs)
    ensures transfer.tempDirReady && transfer.cancelled ==>
      r == Downloaded(Failure(ProcessCanceledException), d, fs + {PluginTemp(tempName)})
    ensures transfer.tempDirReady && !transfer.cancelled && transfer.response.TransportFailed? ==>
      && r.file == Failure(IOException(transfer.response.message))
      && r.fs == if transfer.response.fileKept then fs + {PluginTemp(tempName)} else fs
    ensures transfer.tempDirReady && !transfer.cancelled && transfer.response.TransferCancelled? ==>
      && r.file == Failure(ProcessCanceledException)
      && r.fs == if transfer.response.fileKept then fs + {PluginTemp(tempName)} else fs
    ensures transfer.tempDirReady && !transfer.cancelled ==>
      r.plan.pluginName == GetPluginName(d, env).1.pluginName
    ensures transfer.tempDirReady && !transfer.cancelled && r.file.Failure? ==>
      r.plan == GetPluginName(d, env).1
    ensures r.file.Success? ==>
      && r.plan.fileName == Some(r.file.value)
      && r.fs == fs + {PluginTemp(r.file.value)}
    ensures transfer.tempDirReady && !transfer.cancelled && transfer.response.Received? ==>
      var named := GetPluginName(d, env).1;
      var guessed := GuessFileName(transfer.response.contentDisposition, transfer.response.resolvedUrl,
                                   d.pluginUrl, env.isValidFileName);
      && (named.fileName.Some? ==> r.file == Success(named.fileName.value))
      && (named.fileName.None? && guessed.Success? ==> r.file == Success(guessed.value))
      && (named.fileName.None? && guessed == Failure(InvalidFileName) ==>
            r.file == Failure(IOException(InvalidFilenameMessage)) && r.fs == fs)
      && (named.fileName.None? && guessed == Failure(QuoteOutOfBounds) ==>
            r.file == Failure(StringIndexOutOfBoundsException) && r.fs == fs + {PluginTemp(tempName)})
  {
    if !transfer.tempDirReady then Downloaded(Failure(IOException(CannotCreateTempDir)), d, fs)
    else
      var fs1 := fs + {PluginTemp(tempName)};
      if transfer.cancelled then Downloaded(Failure(ProcessCanceledException), d, fs1)
      else
        var (_, d1) := GetPluginName(d, env);
        match transfer.response
        case TransportFailed(message, fileKept) =>
          Downloaded(Failure(IOException(message)), d1, if fileKept then fs1 else fs)
        case TransferCancelled(fileKept) =>
          Downloaded(Failure(ProcessCanceledException), d1, if fileKept then fs1 else fs)
        case Received(contentDisposition, resolvedUrl) =>
          if d1.fileName.Some? then
            var name := d1.fileName.value;
            Downloaded(Success(name), d1, fs1 - {PluginTemp(tempName)} + {PluginTemp(name)})
          else
            match GuessFileName(contentDisposition, resolvedUrl, d1.pluginUrl, env.isValidFileName)
            case Failure(InvalidFileName) =>
              Downloaded(Failure(IOException(InvalidFilenameMessage)), d1, fs1 - {PluginTemp(tempName)})
            case Failure(QuoteOutOfBounds) =>
              Downloaded(Failure(StringIndexOutOfBoundsException), d1, fs1)
            case Success(name) =>
              Downloaded(Success(name), d1.(fileName := Some(name)),
                         fs1 - {PluginTemp(tempName)} + {PluginTemp(name)})
  }

  /** A downloader with neither a file name nor a plugin name never consults
      the server's hints: computing the plugin name for the progress text
      caches the plugin URL's last segment as the file name first, so that
      segment is used, unvalidated, whatever the header says. */
  lemma UnnamedDownloadUsesPluginUrl(d: Downloader, env: Env, transfer: Transfer, fs: set<Path>,
                                     tempName: string)
    requires PluginTemp(tempName) !in fs
    requires d.fileName.None? && d.pluginName.None?
    requires transfer.tempDirReady && !transfer.cancelled && transfer.response.Received?
    ensures DownloadPlugin(d, env, transfer, fs, tempName).file == Success(LastSegment(d.pluginUrl))
  {
  }

  /** With a plugin name known and no file name, the server's hints decide:
      a `Content-Disposition` name, when there is one, wins over the URLs. */
  lemma NamedDownloadUsesHeader(d: Downloader, env: Env, transfer: Transfer, fs: set<Path>,
                                tempName: string, name: string)
    requires PluginTemp(tempName) !in fs
    requires d.fileName.None? && d.pluginName.Some?
    requires transfer.tempDirReady && !transfer.cancelled && transfer.response.Received?
    requires transfer.response.contentDisposition == Some("attachment; filename=\"" + name + "\"")
    requires ';' !in name && env.isValidFileName(name)
    ensures DownloadPlugin(d, env, transfer, fs, tempName).file == Success(name)
  {
    QuotedHeaderRoundTrip(name);
  }

  // ---------------------------------------------------------------------------
  // Descriptor loading

  /** The descriptor found in a downloaded file (or the exception), and the
      files present afterwards. */
  datatype Loaded = Loaded(descriptor: Result<Option<Descriptor>, JavaException>, fs: set<Path>)

  /** `loadDescriptionFromJar`: the jar reader's descriptor if it finds one;
      otherwise, for a `.zip` name only, extract into a fresh temp directory
      and read the descriptor of its entry when there is exactly one. The temp
      directory is deleted whatever happens. */
  function LoadDescriptionFromJar(env: Env, file: string, fs: set<Path>, scratchDir: string): (r: Loaded)
    requires SystemTemp(scratchDir) !in fs
    ensures r.fs == fs
    ensures env.loadDescriptorFromJar(file).Some? ==> r.descriptor == Success(env.loadDescriptorFromJar(file))
    ensures env.loadDescriptorFromJar(file).None? && !EndsWith(file, ".zip") ==> r.descriptor == Success(None)
    ensures env.loadDescriptorFromJar(file).None? && EndsWith(file, ".zip") ==>
      match env.extractZip(file)
      case ExtractionFailed(message) => r.descriptor == Failure(IOException(message))
      case Extracted(entries) =>
        r.descriptor == if entries.Some? && |entries.value| == 1
                        then Success(env.loadDescriptor(entries.value[0]))
                        else Success(None)
  {
    match env.loadDescriptorFromJar(file)
    case Some(descriptor) => Loaded(Success(Some(descriptor)), fs)
    case None =>
      if !EndsWith(file, ".zip") then Loaded(Success(None), fs)
      else
        var withDir := fs + {SystemTemp(scratchDir)};
        var descriptor :=
          match env.extractZip(file)
          case ExtractionFailed(message) => Failure(IOException(message))
          case Extracted(entries) =>
            if entries.Some? && |entries.value| == 1 then Success(env.loadDescriptor(entries.value[0]))
            else Success(None);
        Loaded(descriptor, withDir - {SystemTemp(scratchDir)})
  }

  /** Conversely, a descriptor comes only from the jar reader or from the one
      entry of a `.zip` archive: an archive with no entry or several entries
      never yields one. */
  lemma DescriptorSources(env: Env, file: string, fs: set<Path>, scratchDir: string)
    requires SystemTemp(scratchDir) !in fs
    requires LoadDescriptionFromJar(env, file, fs, scratchDir).descriptor.Success?
    requires LoadDescriptionFromJar(env, file, fs, scratchDir).descriptor.value.Some?
    ensures || env.loadDescriptorFromJar(file).Some?
            || (&& EndsWith(file, ".zip")
                && env.extractZip(file).Extracted?
                && env.extractZip(file).entries.Some?
                && |env.extractZip(file).entries.value| == 1)
  {
  }

  // ---------------------------------------------------------------------------
  // prepareToInstall

  /** The post-download decision on the extracted descriptor, in
      `prepareToInstall`'s order: no descriptor accepts the file as it is; an id already updated
      this session rejects; then the descriptor's version replaces the plugin
      version and must beat the installed plugin; then the descriptor is
      recorded and an incompatible one rejects. */
  function Decide(d: Downloader, env: Env, updated: set<string>, installed: Option<Descriptor>,
                  actual: Option<Descriptor>): (r: (bool, Downloader))
    ensures actual.None? ==> r == (true, d)
    ensures actual.Some? && actual.value.id in updated ==> r == (false, d)
    ensures actual.Some? && actual.value.id !in updated ==>
      var a := actual.value;
      && r.1.pluginVersion == Some(a.version)
      && (installed.Some? && CompareVersionsSkipBroken(env, installed.value, a.version) <= 0 ==>
            r == (false, d.(pluginVersion := Some(a.version))))
      && (installed.None? || CompareVersionsSkipBroken(env, installed.value, a.version) > 0 ==>
            r == (!env.isIncompatible(a, d.buildNumber),
                  d.(pluginVersion := Some(a.version), descriptor := Some(a))))
  {
    match actual
    case None => (true, d)
    case Some(a) =>
      if a.id in updated then (false, d)
      else
        var d1 := d.(pluginVersion := Some(a.version));
        if installed.Some? && CompareVersionsSkipBroken(env, installed.value, a.version) <= 0 then (false, d1)
        else
          var d2 := d1.(descriptor := Some(a));
          if env.isIncompatible(a, d2.buildNumber) then (false, d2) else (true, d2)
  }

  /** The decision accepts exactly when there is no descriptor, or the
      descriptor's id was not updated this session, its version beats the
      installed plugin (if any), and it is compatible; an accepted descriptor
      is recorded with its version. */
  lemma DecideAcceptsExactly(d: Downloader, env: Env, updated: set<string>,
                             installed: Option<Descriptor>, a: Descriptor)
    ensures Decide(d, env, updated, installed, Some(a)).0 <==>
      && a.id !in updated
      && (installed.None? || CompareVersionsSkipBroken(env, installed.value, a.version) > 0)
      && !env.isIncompatible(a, d.buildNumber)
    ensures Decide(d, env, updated, installed, Some(a)).0 ==>
      Decide(d, env, updated, installed, Some(a)).1.descriptor == Some(a)
  {
  }

  /** The outcome of `prepareToInstall`, the updated downloader, and the files
      present afterwards. */
  datatype Prepared = Prepared(outcome: Outcome, plan: Downloader, fs: set<Path>)

  /** How `prepareToInstall` ends once it starts the download of `d`: a
      download `IOException` gives false with no file staged; any other
      download exception escapes; after a failed download the files are as
      the download left them, and so is the downloader, except that the error
      dialog's `getPluginName()` may fill the name caches; a downloaded file is staged, an exception
      from loading its descriptor escapes, and otherwise the outcome and the
      downloader are exactly what `Decide` gives on the staged downloader. */
  predicate FollowsDownload(r: Prepared, d: Downloader, env: Env, updated: set<string>,
                            installed: Option<Descriptor>, transfer: Transfer, fs: set<Path>,
                            tempName: string, scratchDir: string)
    requires PluginTemp(tempName) !in fs && SystemTemp(scratchDir) !in fs
  {
    var dl := DownloadPlugin(d, env, transfer, fs, tempName);
    match dl.file
    case Failure(e) =>
      && r.plan.file.None?
      && r.outcome == (if e.IOException? then Returned(false) else Threw(e))
      && r.fs == dl.fs
      && r.plan == if e.IOException? && env.hasApplication then GetPluginName(dl.plan, env).1 else dl.plan
    case Success(file) =>
      var ld := LoadDescriptionFromJar(env, file, dl.fs, scratchDir);
      var staged := dl.plan.(file := Some(file));
      && r.fs == dl.fs
      && match ld.descriptor
         case Failure(e) => r.outcome == Threw(e) && r.plan == staged
         case Success(actual) =>
           var (accepted, decided) := Decide(staged, env, updated, installed, actual);
           r.outcome == Returned(accepted) && r.plan == decided
  }

  /** Everything after the installed-plugin check: download, report an
      `IOException` as `false` (computing the plugin name for the error
      dialog when an application is running), let other exceptions escape,
      record the file, load its descriptor and decide. */
  function DownloadAndDecide(d: Downloader, env: Env, updated: set<string>, installed: Option<Descriptor>,
                             transfer: Transfer, fs: set<Path>, tempName: string, scratchDir: string): (r: Prepared)
    requires d.file.None?
    requires PluginTemp(tempName) !in fs && SystemTemp(scratchDir) !in fs
    ensures var dl := DownloadPlugin(d, env, transfer, fs, tempName);
      && (r.plan.file.Some? <==> dl.file.Success?)
      && (dl.file.Failure? && dl.file.error.IOException? ==> r.outcome == Returned(false))
      && (dl.file.Failure? && !dl.file.error.IOException? ==> r.outcome == Threw(dl.file.error))
      && (dl.file.Success? ==> r.plan.file == Some(dl.file.value) && r.fs == dl.fs)
    ensures r.plan.oldFile == d.oldFile
    ensures FollowsDownload(r, d, env, updated, installed, transfer, fs, tempName, scratchDir)
  {
    var dl := DownloadPlugin(d, env, transfer, fs, tempName);
    match dl.file
    case Failure(e) =>
      if e.IOException? then
        var plan := if env.hasApplication then GetPluginName(dl.plan, env).1 else dl.plan;
        Prepared(Returned(false), plan, dl.fs)
      else Prepared(Threw(e), dl.plan, dl.fs)
    case Success(file) =>
      var d1 := dl.plan.(file := Some(file));
      assert SystemTemp(scratchDir) !in dl.fs;
      var loaded := LoadDescriptionFromJar(env, file, dl.fs, scratchDir);
      match loaded.descriptor
      case Failure(e) => Prepared(Threw(e), d1, loaded.fs)
      case Success(actual) =>
        var (accepted, d2) := Decide(d1, env, updated, installed, actual);
        Prepared(Returned(accepted), d2, loaded.fs)
  }

  /** `prepareToInstall`. A downloader that already holds a file returns true
      at once. When the plugin is installed (outside the startup wizard) and a
      version hint does not beat it, the call returns false before any
      download and without recording the old file; otherwise the installed
      plugin's path is recorded as the old file and the download proceeds. */
  function PrepareToInstall(d: Downloader, env: Env, updated: set<string>, transfer: Transfer,
                            fs: set<Path>, tempName: string, scratchDir: string): (r: Prepared)
    requires PluginTemp(tempName) !in fs && SystemTemp(scratchDir) !in fs
    ensures d.file.Some? ==> r == Prepared(Returned(true), d, fs)
    ensures r.outcome == Returned(true) ==> r.plan.file.Some?
    ensures r.plan.file.None? ==> r.plan.descriptor == d.descriptor
    ensures r.plan.oldFile != d.oldFile ==>
      && d.file.None? && !env.startupWizardMode && env.isPluginInstalled(d.pluginId)
      && env.getPlugin(d.pluginId).Some?
      && r.plan.oldFile == Some(env.getPlugin(d.pluginId).value.path)
    ensures d.file.None? && (env.startupWizardMode || !env.isPluginInstalled(d.pluginId)) ==>
      FollowsDownload(r, d, env, updated, None, transfer, fs, tempName, scratchDir)
    ensures d.file.None? && !env.startupWizardMode && env.isPluginInstalled(d.pluginId) ==>
      match env.getPlugin(d.pluginId)
      case None => r == Prepared(Threw(NullPointerException), d, fs)
      case Some(installed) =>
        if d.pluginVersion.Some? && CompareVersionsSkipBroken(env, installed, d.pluginVersion.value) <= 0
        then r == Prepared(Returned(false), d, fs)
        else
          && r.plan.oldFile == Some(installed.path)
          && FollowsDownload(r, d.(oldFile := Some(installed.path)), env, updated, Some(installed),
                             transfer, fs, tempName, scratchDir)
  {
    if d.file.Some? then Prepared(Returned(true), d, fs)
    else if !env.startupWizardMode && env.isPluginInstalled(d.pluginId) then
      match env.getPlugin(d.pluginId)
      case None => Prepared(Threw(NullPointerException), d, fs)
      case Some(installed) =>
        if d.pluginVersion.Some? && CompareVersionsSkipBroken(env, installed, d.pluginVersion.value) <= 0 then
          Prepared(Returned(false), d, fs)
        else
          DownloadAndDecide(d.(oldFile := Some(installed.path)), env, updated, Some(installed),
                            transfer, fs, tempName, scratchDir)
    else DownloadAndDecide(d, env, updated, None, transfer, fs, tempName, scratchDir)
  }

  // ---------------------------------------------------------------------------
  // install

  /** A deferred action run at the next start: delete a path. */
  datatype Command = DeleteCommand(path: string)

  /** One call of the plugin installer. */
  datatype Installation = Installation(file: string, pluginName: string, overwrite: bool)

  /** The process-wide services `install` writes to: the startup action
      script, the installer's calls, and the descriptors reported to the
      installed-plugins state (possibly null). */
  datatype Services = Services(actionScript: seq<Command>, installs: seq<Installation>,
                               registered: seq<Option<Descriptor>>)

  /** `install`: requires a staged file; appends one delete command for the
      old file exactly when one was recorded, then installs the file under the
      plugin name (overwriting) and reports the descriptor. */
  function Install(d: Downloader, env: Env, s: Services): (r: (Downloader, Services))
    requires d.file.Some?
    ensures |r.1.actionScript| == |s.actionScript| + (if d.oldFile.Some? then 1 else 0)
    ensures r.1.actionScript[..|s.actionScript|] == s.actionScript
    ensures d.oldFile.Some? ==> r.1.actionScript[|s.actionScript|] == DeleteCommand(d.oldFile.value)
    ensures r.1.installs == s.installs + [Installation(d.file.value, GetPluginName(d, env).0, true)]
    ensures r.1.registered == s.registered + [d.descriptor]
    ensures r.0 == GetPluginName(d, env).1
  {
    var script := if d.oldFile.Some? then s.actionScript + [DeleteCommand(d.oldFile.value)] else s.actionScript;
    var (name, d1) := GetPluginName(d, env);
    (d1, Services(script, s.installs + [Installation(d.file.value, name, true)], s.registered + [d.descriptor]))
  }
}

=== FILE: plugin_naming.dfy ===
/** How `PluginDownloader` names a downloaded plugin file: the last path
    segment of a URL, the `filename=` directive of a `Content-Disposition`
    response header (the header of RFC 6266, read with a plain substring scan
    rather than that RFC's grammar), and the fallback order between them. */
module PluginNaming {
  import opened Wrappers
  import opened Jdk

  /** The directive the header scan looks for. */
  const FILENAME := "filename="

  /** `url.substring(url.lastIndexOf('/') + 1)`: everything after the last
      slash, or the whole string when it has none. */
  function LastSegment(url: string): (r: string)
    ensures '/' !in r
    ensures |r| <= |url| && r == url[|url| - |r|..]
    ensures '/' in url ==> |r| < |url| && url[|url| - |r| - 1] == '/'
    ensures '/' !in url ==> r == url
  {
    url[LastIndexOfChar(url, '/') + 1..]
  }

  /** Appending a slash and a slash-free segment to any URL makes that segment
      the URL's last segment. */
  lemma LastSegmentOfAppended(prefix: string, segment: string)
    requires '/' !in segment
    ensures LastSegment(prefix + "/" + segment) == segment
  {
    var url := prefix + "/" + segment;
    assert url[|url| - |segment|..] == segment;
    assert url[|url| - |segment| - 1] == '/';
  }

  /** Where the raw directive value sits in a header that contains `filename=`:
      `lo` is just past the FIRST occurrence of `filename=`, and `hi` is the
      first `;` at or after that occurrence, or the end of the header. */
  function DirectiveSpan(header: string): (span: (int, int))
    requires Contains(header, FILENAME)
    ensures |FILENAME| <= span.0 <= span.1 <= |header|
    ensures OccursAt(header, FILENAME, span.0 - |FILENAME|)
    ensures forall j :: 0 <= j < span.0 - |FILENAME| ==> !OccursAt(header, FILENAME, j)
    ensures forall k :: span.0 <= k < span.1 ==> header[k] != ';'
    ensures span.1 == |header| || header[span.1] == ';'
  {
    var startIdx := IndexOfFrom(header, FILENAME, 0);
    var endIdx := IndexOfCharFrom(header, ';', startIdx);
    assert header[startIdx..startIdx + |FILENAME|] == FILENAME;
    assert forall k :: startIdx <= k < startIdx + |FILENAME| ==> header[k] != ';' by {
      forall k | startIdx <= k < startIdx + |FILENAME|
        ensures header[k] != ';'
      {
        assert header[k] == FILENAME[k - startIdx];
      }
    }
    (startIdx + |FILENAME|, if endIdx > 0 then endIdx else |header|)
  }

  /** The text of the `filename=` directive, before quote removal. */
  function RawDirective(header: string): (raw: string)
    requires Contains(header, FILENAME)
    ensures ';' !in raw
  {
    var span := DirectiveSpan(header);
    header[span.0..span.1]
  }

  /** What the header scan yields: no name, a name, or the
      `StringIndexOutOfBoundsException` thrown by the quote removal. */
  datatype HeaderName = NoName | Name(name: string) | SubstringOutOfBounds

  /** The name carried by a `Content-Disposition` header, if any. The value
      runs from the first `filename=` to the next `;` or the end; one pair of
      surrounding double quotes is removed when the value both starts and ends
      with `"`. A value that is a single `"` passes that test and makes the
      removal call `substring(1, 0)`, which throws. */
  function NameFromHeader(contentDisposition: Option<string>): (r: HeaderName)
    ensures r.NoName? <==> contentDisposition.None? || !Contains(contentDisposition.value, FILENAME)
    ensures !r.NoName? ==> var raw := RawDirective(contentDisposition.value);
      && (r.SubstringOutOfBounds? <==> raw == "\"")
      && (r.Name? && |raw| >= 2 && raw[0] == '"' && raw[|raw| - 1] == '"' ==> r.name == raw[1..|raw| - 1])
      && (r.Name? && !(StartsWithChar(raw, '"') && EndsWithChar(raw, '"')) ==> r.name == raw)
  {
    match contentDisposition
    case None => NoName
    case Some(header) =>
      if !Contains(header, FILENAME) then NoName
      else
        var fileName := RawDirective(header);
        if StartsWithChar(fileName, '"') && EndsWithChar(fileName, '"') then
          match Substring(fileName, 1, |fileName| - 1)
          case None => SubstringOutOfBounds
          case Some(unquoted) => Name(unquoted)
        else Name(fileName)
  }

  /** The fallback when the header gives no name: the resolved URL's last
      segment, unless it is empty or carries a `?`, in which case the plugin
      URL's last segment, unchecked. */
  function NameFromUrls(usedUrl: string, pluginUrl: string): (r: string)
    ensures '/' !in r
    ensures r == LastSegment(usedUrl) || r == LastSegment(pluginUrl)
    ensures r == LastSegment(usedUrl) <== |LastSegment(usedUrl)| > 0 && '?' !in LastSegment(usedUrl)
    ensures r == LastSegment(pluginUrl) <== |LastSegment(usedUrl)| == 0 || '?' in LastSegment(usedUrl)
  {
    var fileName := LastSegment(usedUrl);
    if |fileName| == 0 || '?' in fileName then LastSegment(pluginUrl) else fileName
  }

  /** Why `guessFileName` gives up: a name the validity predicate rejects
      (`IOException`), or the exception of the single-quote header. */
  datatype GuessError = InvalidFileName | QuoteOutOfBounds

  /** `guessFileName`: the header name, else the URL fallback, returned
      unchanged when `isValidFileName` accepts it. */
  function GuessFileName(contentDisposition: Option<string>, usedUrl: string, pluginUrl: string,
                         isValidFileName: string -> bool): (r: Result<string, GuessError>)
    ensures NameFromHeader(contentDisposition).SubstringOutOfBounds? ==> r == Failure(QuoteOutOfBounds)
    ensures NameFromHeader(contentDisposition).Name? ==>
      var name := NameFromHeader(contentDisposition).name;
      r == if isValidFileName(name) then Success(name) else Failure(InvalidFileName)
    ensures NameFromHeader(contentDisposition).NoName? ==>
      var name := NameFromUrls(usedUrl, pluginUrl);
      r == if isValidFileName(name) then Success(name) else Failure(InvalidFileName)
    ensures r.Success? ==> isValidFileName(r.value)
  {
    match NameFromHeader(contentDisposition)
    case SubstringOutOfBounds => Failure(QuoteOutOfBounds)
    case Name(fileName) =>
      if isValidFileName(fileName) then Success(fileName) else Failure(InvalidFileName)
    case NoName =>
      var fileName := NameFromUrls(usedUrl, pluginUrl);
      if isValidFileName(fileName) then Success(fileName) else Failure(InvalidFileName)
  }

  /** A directive found at `i` with no earlier occurrence and no `;` after it
      has all the rest of the header as its raw value. */
  lemma RawDirectiveRunsToEnd(header: string, i: nat)
    requires OccursAt(header, FILENAME, i)
    requires forall j :: 0 <= j < i ==> !OccursAt(header, FILENAME, j)
    requires ';' !in header[i + |FILENAME|..]
    ensures Contains(header, FILENAME)
    ensures RawDirective(header) == header[i + |FILENAME|..]
  {
  }

  /** No position of "attachment; " starts `filename=`: it holds no `f`. */
  lemma NoDirectiveInAttachment(header: string, j: int)
    requires |header| >= 12 && header[..12] == "attachment; "
    requires 0 <= j < 12
    ensures !OccursAt(header, FILENAME, j)
  {
    assert header[j] == header[..12][j];
  }

  /** Round trip: a server that sends `attachment; filename="<name>"` for a
      name free of `;` has that exact name recovered, whatever the URLs. */
  lemma QuotedHeaderRoundTrip(name: string)
    requires ';' !in name
    ensures NameFromHeader(Some("attachment; filename=\"" + name + "\"")) == Name(name)
  {
    var header := "attachment; filename=\"" + name + "\"";
    var quoted := "\"" + name + "\"";
    assert header == "attachment; filename=" + quoted;
    assert header[..12] == "attachment; ";
    assert header[12..21] == FILENAME;
    forall j | 0 <= j < 12 ensures !OccursAt(header, FILENAME, j) {
      NoDirectiveInAttachment(header, j);
    }
    assert header[21..] == quoted;
    RawDirectiveRunsToEnd(header, 12);
    assert quoted[1..|quoted| - 1] == name;
  }

  /** Round trip without quotes: `filename=<name>` yields `<name>` when the
      name has no `;` and is not itself wrapped in quotes. */
  lemma BareHeaderRoundTrip(name: string)
    requires ';' !in name
    requires !(StartsWithChar(name, '"') && EndsWithChar(name, '"'))
    ensures NameFromHeader(Some(FILENAME + name)) == Name(name)
  {
    var header := FILENAME + name;
    assert header[..|FILENAME|] == FILENAME && header[|FILENAME|..] == name;
    RawDirectiveRunsToEnd(header, 0);
  }

  /** The header edge case: a directive value that is one `"` starts and ends
      with a quote, and removing them throws. */
  lemma SingleQuoteValueThrows()
    ensures NameFromHeader(Some("filename=\"")) == SubstringOutOfBounds
  {
    var header := "filename=\"";
    assert header[..|FILENAME|] == FILENAME && header[|FILENAME|..] == "\"";
    RawDirectiveRunsToEnd(header, 0);
  }
}

=== FILE: plugin_scenarios.dfy ===
/** Properties of `prepareToInstall` followed by `install` as a pipeline:
    the early rejection, the broken-plugin override at its boundary, the
    post-download outcomes, and the effect on the startup action script. */
module PluginScenarios {
  import opened Wrappers
  import opened PluginDownloader

  /** A transfer that reaches the server and gets a body back. */
  predicate Delivered(transfer: Transfer) {
    transfer.tempDirReady && !transfer.cancelled && transfer.response.Received?
  }

  /** The installed-plugin check finds `installed`. */
  predicate InstalledAs(env: Env, d: Downloader, installed: Descriptor) {
    !env.startupWizardMode && env.isPluginInstalled(d.pluginId) && env.getPlugin(d.pluginId) == Some(installed)
  }

  /** The installed-plugin check finds nothing to compare against. */
  predicate NotInstalled(env: Env, d: Downloader) {
    env.startupWizardMode || !env.isPluginInstalled(d.pluginId)
  }

  /** A version hint that does not beat the installed plugin stops
      `prepareToInstall` before any download: false, no file created, and the
      downloader untouched (in particular no old file is recorded). */
  lemma EarlyRejectionSkipsDownload(d: Downloader, env: Env, updated: set<string>, transfer: Transfer,
                                    fs: set<Path>, tempName: string, scratchDir: string, installed: Descriptor)
    requires PluginTemp(tempName) !in fs && SystemTemp(scratchDir) !in fs
    requires d.file.None? && InstalledAs(env, d, installed)
    requires d.pluginVersion.Some? && CompareVersionsSkipBroken(env, installed, d.pluginVersion.value) <= 0
    ensures PrepareToInstall(d, env, updated, transfer, fs, tempName, scratchDir)
         == Prepared(Returned(false), d, fs)
  {
  }

  /** The broken-plugin override only lifts strictly older versions: a hint
      equal to a broken installed version is still rejected before download. */
  lemma BrokenEqualVersionIsRejected(d: Downloader, env: Env, updated: set<string>,
                                    transfer: Transfer, fs: set<Path>, tempName: string,
                                    scratchDir: string, installed: Descriptor)
    requires PluginTemp(tempName) !in fs && SystemTemp(scratchDir) !in fs
    requires d.file.None? && InstalledAs(env, d, installed) && env.isBrokenPlugin(installed)
    requires d.pluginVersion.Some? && env.compareVersionNumbers(d.pluginVersion.value, installed.version) == 0
    ensures PrepareToInstall(d, env, updated, transfer, fs, tempName, scratchDir).outcome == Returned(false)
  {
  }

  /** A strictly older hint against a broken installed plugin goes ahead: the
      installed plugin's path is recorded as the file to delete. */
  lemma BrokenOlderVersionIsFetched(d: Downloader, env: Env, updated: set<string>,
                                    transfer: Transfer, fs: set<Path>, tempName: string,
                                    scratchDir: string, installed: Descriptor)
    requires PluginTemp(tempName) !in fs && SystemTemp(scratchDir) !in fs
    requires d.file.None? && d.oldFile.None? && InstalledAs(env, d, installed) && env.isBrokenPlugin(installed)
    requires d.pluginVersion.Some? && env.compareVersionNumbers(d.pluginVersion.value, installed.version) < 0
    ensures PrepareToInstall(d, env, updated, transfer, fs, tempName, scratchDir).plan.oldFile == Some(installed.path)
  {
  }

  /** An `IOException` while downloading makes `prepareToInstall` return false
      with no file staged, so the downloader can be prepared again later. */
  lemma DownloadFailureStagesNothing(d: Downloader, env: Env, updated: set<string>, transfer: Transfer,
                                     fs: set<Path>, tempName: string, scratchDir: string, message: string)
    requires PluginTemp(tempName) !in fs && SystemTemp(scratchDir) !in fs
    requires d.file.None? && NotInstalled(env, d)
    requires transfer.tempDirReady && !transfer.cancelled && transfer.response.TransportFailed? && transfer.response.message == message
    ensures PrepareToInstall(d, env, updated, transfer, fs, tempName, scratchDir).outcome == Returned(false)
    ensures PrepareToInstall(d, env, updated, transfer, fs, tempName, scratchDir).plan.file.None?
    ensures PrepareToInstall(d, env, updated, transfer, fs, tempName, scratchDir).fs
         == if transfer.response.fileKept then fs + {PluginTemp(tempName)} else fs
    ensures PrepareToInstall(d, env, updated, transfer, fs, tempName, scratchDir).plan.pluginVersion
         == d.pluginVersion
  {
  }

  /** Cancellation is not an `IOException`: it escapes `prepareToInstall`,
      and the temp file made before the check is left behind. */
  lemma CancellationEscapes(d: Downloader, env: Env, updated: set<string>, transfer: Transfer,
                            fs: set<Path>, tempName: string, scratchDir: string)
    requires PluginTemp(tempName) !in fs && SystemTemp(scratchDir) !in fs
    requires d.file.None? && NotInstalled(env, d)
    requires transfer.tempDirReady && transfer.cancelled
    ensures PrepareToInstall(d, env, updated, transfer, fs, tempName, scratchDir)
         == Prepared(Threw(ProcessCanceledException), d, fs + {PluginTemp(tempName)})
  {
  }

  /** A cancellation while the body is being saved escapes the same way,
      after the plugin name has been cached for the progress text: nothing is
      staged, and an upgrade keeps the installed path as the old file. */
  lemma TransferCancellationEscapes(d: Downloader, env: Env, updated: set<string>, transfer: Transfer,
                                    fs: set<Path>, tempName: string, scratchDir: string,
                                    installed: Descriptor)
    requires PluginTemp(tempName) !in fs && SystemTemp(scratchDir) !in fs
    requires d.file.None? && d.pluginVersion.None? && InstalledAs(env, d, installed)
    requires transfer.tempDirReady && !transfer.cancelled && transfer.response.TransferCancelled?
    ensures var r := PrepareToInstall(d, env, updated, transfer, fs, tempName, scratchDir);
      && r.outcome == Threw(ProcessCanceledException)
      && r.plan.file.None?
      && r.plan.oldFile == Some(installed.path)
      && r.plan.pluginName == GetPluginName(d, env).1.pluginName
  {
  }

  /** A post-download rejection keeps the downloaded file in the downloader,
      so preparing the same downloader again answers true. Shown for an id
      already updated this session. */
  lemma RejectionAfterDownloadThenRetryAccepts(d: Downloader, env: Env, updated: set<string>,
                                    transfer: Transfer, fs: set<Path>, tempName: string,
                                    scratchDir: string, name: string, a: Descriptor)
    requires PluginTemp(tempName) !in fs && SystemTemp(scratchDir) !in fs
    requires d.file.None? && NotInstalled(env, d)
    requires d.fileName == Some(name) && Delivered(transfer)
    requires env.loadDescriptorFromJar(name) == Some(a) && a.id in updated
    ensures var r := PrepareToInstall(d, env, updated, transfer, fs, tempName, scratchDir);
      && r.outcome == Returned(false)
      && r.plan.file == Some(name)
      && PrepareToInstall(r.plan, env, updated, transfer, fs, tempName, scratchDir).outcome == Returned(true)
  {
  }

  /** An incompatible descriptor is rejected, but only after it has been
      recorded in the downloader together with its version. */
  lemma IncompatibleDescriptorIsRecorded(d: Downloader, env: Env, updated: set<string>,
                                    transfer: Transfer, fs: set<Path>, tempName: string,
                                    scratchDir: string, name: string, a: Descriptor)
    requires PluginTemp(tempName) !in fs && SystemTemp(scratchDir) !in fs
    requires d.file.None? && NotInstalled(env, d)
    requires d.fileName == Some(name) && Delivered(transfer)
    requires env.loadDescriptorFromJar(name) == Some(a) && a.id !in updated
    requires env.isIncompatible(a, d.buildNumber)
    ensures var r := PrepareToInstall(d, env, updated, transfer, fs, tempName, scratchDir);
      && r.outcome == Returned(false)
      && r.plan.descriptor == Some(a)
      && r.plan.pluginVersion == Some(a.version)
  {
  }

  /** A first install: a plugin that is not installed, downloaded with a
      compatible descriptor not yet updated this session, is staged; its
      install adds no delete command to the startup action script. */
  lemma FreshInstallSchedulesNoDelete(d: Downloader, env: Env, updated: set<string>,
                                    transfer: Transfer, fs: set<Path>, tempName: string,
                                    scratchDir: string, name: string, a: Descriptor, s: Services)
    requires PluginTemp(tempName) !in fs && SystemTemp(scratchDir) !in fs
    requires d.file.None? && d.oldFile.None? && NotInstalled(env, d)
    requires d.fileName == Some(name) && Delivered(transfer)
    requires env.loadDescriptorFromJar(name) == Some(a) && a.id !in updated
    requires !env.isIncompatible(a, d.buildNumber)
    ensures var r := PrepareToInstall(d, env, updated, transfer, fs, tempName, scratchDir);
      && r.outcome == Returned(true)
      && r.plan.file == Some(name)
      && r.plan.descriptor == Some(a)
      && Install(r.plan, env, s).1.actionScript == s.actionScript
      && Install(r.plan, env, s).1.registered == s.registered + [Some(a)]
  {
  }

  /** An upgrade: an installed plugin replaced by a downloaded descriptor that
      beats it is staged with the installed path recorded, and its install
      appends exactly one command, deleting that path at the next start. */
  lemma UpgradeSchedulesDeleteOfOldPlugin(d: Downloader, env: Env, updated: set<string>,
                                    transfer: Transfer, fs: set<Path>, tempName: string,
                                    scratchDir: string, name: string, installed: Descriptor,
                                    a: Descriptor, s: Services)
    requires PluginTemp(tempName) !in fs && SystemTemp(scratchDir) !in fs
    requires d.file.None? && InstalledAs(env, d, installed) && d.pluginVersion.None?
    requires d.fileName == Some(name) && Delivered(transfer)
    requires env.loadDescriptorFromJar(name) == Some(a) && a.id !in updated
    requires CompareVersionsSkipBroken(env, installed, a.version) > 0
    requires !env.isIncompatible(a, d.buildNumber)
    ensures var r := PrepareToInstall(d, env, updated, transfer, fs, tempName, scratchDir);
      && r.outcome == Returned(true)
      && r.plan.oldFile == Some(installed.path)
      && Install(r.plan, env, s).1.actionScript == s.actionScript + [DeleteCommand(installed.path)]
  {
  }
}

=== FILE: wrappers.dfy ===
/** Optional values and success-or-failure results, standing in for Java's
    nullable references and thrown exceptions. */
module Wrappers {

  /** A nullable reference: `None` is Java's `null`. */
  datatype Option<+T> = None | Some(value: T)

  /** The result of a Java call that either returns a value or throws. */
  datatype Result<+R, +E> = Success(value: R) | Failure(error: E)
}
